=== FILE: README.md ===
# OAuth2 credential lifecycle of the SAS Viya demo client

This project is a Dafny model of the token handling in `auth_utils.py`. The code:

- builds the HTTP Basic credential from the client id and secret (`_get_base64_auth_string`);
- keeps the access and refresh tokens in two text files (`save_token`, `load_token`);
- obtains tokens with the OAuth2 authorization-code grant (`generate_access_token`) or the refresh-token grant (`refresh_access_token`);
- combines the two grants in one policy (`get_token`): refresh first, and on any failure show the authorization URL once and run the code grant once.

The model has no I/O:

- The token directory is a map from file name to file contents (`TokenStore.Store`).
- The server's reply is a `Http.Response` parameter.
- The code the user pastes is a string parameter.
- The configuration is a `Credentials.Config` parameter. `DefaultConfig` holds the defaults of lines 15-17.

Each grant returns an `Attempt`. It records the request it posted, with `None` when it failed before posting, its result, and the files afterwards. `get_token` returns a `Session`, which also records the authorization URLs shown and the requests posted, in order.

The Python exceptions become `Outcomes.Error` values. Each error is `NotFound`, `NonAsciiCredentials`, `TransportFailed`, `HttpStatus`, `MalformedJson`, `NotAnObject`, `MissingField` or `NotAString`.

Modules:

- `Outcomes`: Option, Result and Error.
- `Text`: Python's `str.strip()` and universal-newline reading.
- `Base64`: RFC 4648 section 4, with a strict decoder as the encoder's partner.
- `Credentials`: ASCII encoding, the Basic credential of RFC 7617, and the authorization URL of section 4.1.1 of RFC 6749.
- `TokenStore`: the two files.
- `Http`: the reply.
- `Grants`: the two grants of sections 4.1.3 and 6 of RFC 6749, and the policy.
- `Scenarios`: end-to-end runs.

The model follows the code where the code and its comments or intent differ:

- `response.raise_for_status()` raises only for statuses 400-599. The comment at line 80 says "not 2xx". A 1xx or 3xx reply that carries a token is accepted (`Http.IsErrorStatus`, `Grants.CarriesToken`).
- `save_token` opens the file for writing, which empties it, before `f.write` runs. A reply whose token is not a JSON string therefore leaves that file empty, and the grant fails (`Grants.RefreshNonStringAccess`, `Grants.GenerateNonStringAccess`, `Grants.GeneratePartialWrites`, `Grants.RefreshFailureStore`, `Grants.GenerateFailureStore`, `Scenarios.NonStringTokenEmptiesFile`).
- `load_token` reads in text mode. `"\r\n"` and a lone `"\r"` become `"\n"` before stripping.
- `str.strip()` removes exactly the characters for which `str.isspace()` holds (`Text.IsSpace`), not only ASCII blanks.
- The `.encode('ascii')` in `_get_base64_auth_string` runs after the refresh token has been loaded (refresh) or the code has been read (code grant), and before anything is posted.

## Model

| member | source | states |
|---|---|---|
| Base64.Encode | auth_utils.py:24 | The text's length is a multiple of 4, and it is empty exactly when the input is. |
| Base64.EncodeLength | auth_utils.py:24 | The encoding of n bytes has 4·⌈n/3⌉ characters. |
| Base64.EncodeAlphabet | auth_utils.py:24 | The encoding is alphabet characters followed by exactly (3 − n mod 3) mod 3 '=' characters. |
| Base64.DecodeEncode | auth_utils.py:24 | Decoding the encoding of any byte sequence gives that sequence back. |
| Base64.EncodeDecode | auth_utils.py:24 | Every text the strict decoder accepts is the encoding of the bytes it decodes to. |
| Base64.DecodeIff | auth_utils.py:24 | Decode(s) = Some(b) exactly when Encode(b) = s. |
| Credentials.AsciiEncode | auth_utils.py:24 | `.encode('ascii')` succeeds exactly when every character is below 128, and gives one byte per character equal to its code point. |
| Credentials.AsciiRoundTrip | auth_utils.py:24 | `.decode('ascii')` of those bytes gives the string back. |
| Credentials.BasicAuthString | auth_utils.py:22-24 | Fails with NonAsciiCredentials exactly when "id:secret" is not ASCII. Otherwise it has length 4·⌈(n+1)/3⌉ and decodes to the ASCII bytes of "id:secret". |
| Credentials.AuthStringIsAscii | auth_utils.py:24 | The Base64 text is ASCII, so the final `.decode('ascii')` cannot fail. |
| Credentials.SplitUserPass | auth_utils.py:23 | A server's split at the first colon: no split exactly when there is no colon, and the parts join back around the colon. |
| Credentials.BasicAuthRecoversCredentials | auth_utils.py:22-24 | A server that decodes the credential and splits it recovers exactly the configured id and secret, when the id has no colon. |
| Credentials.AuthorizeUrl | auth_utils.py:39 | The URL is the base URL, then "/SASLogon/oauth/authorize?client_id=", then the client id verbatim, then "&response_type=code", and nothing else. |
| Text.TranslateNewlines | auth_utils.py:33-34 | Text-mode reading leaves no '\r', never lengthens the text, and changes nothing in a text without '\r'. |
| Text.TranslateTwoPass | auth_utils.py:33 | Text-mode reading equals Python's two-pass description of universal newlines, `s.replace("\r\n", "\n").replace("\r", "\n")`: each "\r\n" and each lone "\r" becomes one "\n", and every other character is kept in order. |
| Text.Strip | auth_utils.py:34 | The result has no whitespace at either end and is a slice of the input with only whitespace before and after it. |
| Text.StripUnique | auth_utils.py:34 | Any cut with whitespace on both sides and a trimmed middle is the cut Strip makes. |
| Text.StripIdempotent | auth_utils.py:34 | Stripping twice is stripping once. |
| Text.StripTrimmed | auth_utils.py:42 | A code with no whitespace at either end is pasted unchanged. |
| TokenStore.Save | auth_utils.py:27-29 | The file's contents become the token, the file is created if absent, and every other file is as before. |
| TokenStore.Load | auth_utils.py:32-34 | NotFound exactly when the file is absent. Otherwise the result is trimmed and has no '\r'. |
| TokenStore.LoadAfterSave | auth_utils.py:27-34 | Loading a just-saved token gives it newline-translated and stripped. For a token without '\r' it gives exactly `token.strip()`. |
| TokenStore.SaveLastWins | auth_utils.py:27-29 | A second save to a file erases every trace of the first. |
| TokenStore.SaveKeepsOtherFiles | auth_utils.py:27-34 | Saving one file changes what every other file loads as in no way. |
| TokenStore.LoadSaveLoad | auth_utils.py:27-34 | Saving what was loaded and loading again gives the same token. |
| Http.ReplyObject | auth_utils.py:79-81 | A reply is usable exactly when it arrived, its status is not 4xx/5xx and its body is a JSON object. A 4xx/5xx status is reported as such. |
| Grants.StoreToken | auth_utils.py:27-29 | The file is overwritten whatever the value, and every other file is kept. The write succeeds exactly for a string value, which becomes the contents. Otherwise the file is left empty and the error names the key. |
| Grants.SaveAccess | auth_utils.py:79-85 | It succeeds exactly when the reply carries a string access token. It then returns that token and saves it. It fails with NotAString("access_token") exactly when the reply is accepted and has an access_token field that is not a string, and that failure empties the access-token file. Every other failure changes nothing. Only the access-token file is touched. |
| Grants.RefreshAccessToken | auth_utils.py:67-88 | Only the access-token file may change. Nothing is posted exactly when the refresh file is missing or the credentials are not ASCII, and then nothing changes. What is posted is the refresh URL with the Basic header and the loaded refresh token verbatim. On success the store is the old one with the new token saved. |
| Grants.SaveBoth | auth_utils.py:56-61 | It succeeds exactly when both values are strings. It then returns the access token and saves the access token, then the refresh token. A non-string access token fails with NotAString("access_token") and empties only the access-token file. A string access token with a non-string refresh token fails with NotAString("refresh_token"), saves the access token and empties the refresh-token file. Only those two files are touched. |
| Grants.GenerateAccessToken | auth_utils.py:38-64 | Only the two token files may change. Nothing is posted exactly when the credentials are not ASCII. What is posted is the code URL with the Basic header and the stripped pasted code verbatim. |
| Grants.GetToken | auth_utils.py:91-101 | At most one prompt and two requests. No prompt exactly when refresh succeeds, and the prompt is the authorization URL. Only the two token files may change. |
| Grants.UnchangedLoad | auth_utils.py:32-34 | A file outside the written set loads as it did before. |
| Grants.RefreshWithoutRefreshFile | auth_utils.py:69 | Without a refresh-token file, refresh fails with NotFound before posting and changes nothing. |
| Grants.RefreshSucceedsIff | auth_utils.py:67-85 | Refresh succeeds exactly when the refresh file exists, the credentials are ASCII and the reply carries a string access token. It then returns and saves that token and posts the exact refresh request. |
| Grants.RefreshFailureStore | auth_utils.py:79-88 | A failed refresh leaves the files as they were, except that a non-string access token leaves the access-token file empty. |
| Grants.RefreshHttpError | auth_utils.py:80 | A 4xx/5xx reply fails with that status and changes nothing. |
| Grants.RefreshReadsBeforeWriting | auth_utils.py:79-83 | A transport failure, a 4xx/5xx reply, a non-object body or a body without access_token fails the refresh with the files untouched, because `data['access_token']` raises before `save_token` runs. |
| Grants.RefreshNonStringAccess | auth_utils.py:82-83 | A present access_token that is not a string fails with NotAString("access_token") and leaves the access-token file empty. |
| Grants.RefreshKeepsRefreshToken | auth_utils.py:81-85 | Refresh never changes what the refresh-token file loads as. |
| Grants.GenerateSucceedsIff | auth_utils.py:44-61 | The code grant succeeds exactly when the credentials are ASCII and the reply carries string access and refresh tokens. It then saves both, returns the access token and posts the exact code request. |
| Grants.GenerateReadsBeforeWriting | auth_utils.py:53-59 | A rejected reply, a non-object body or a missing field fails the grant with both files untouched. |
| Grants.GenerateFailureStore | auth_utils.py:53-63 | A failed code grant leaves the files as they were, except for the two non-string cases: a non-string access token empties the access-token file, and a string access token with a non-string refresh token saves the access token and empties the refresh-token file. |
| Grants.GenerateHttpError | auth_utils.py:53-54 | A 4xx/5xx reply to the code exchange fails with that status and changes nothing. |
| Grants.GenerateNonStringAccess | auth_utils.py:56-58 | With both fields present and a non-string access_token, the code grant fails with NotAString("access_token") and leaves only the access-token file changed, now empty. |
| Grants.GeneratePartialWrites | auth_utils.py:58-59 | A string access token with a non-string refresh token is saved, and the refresh-token file is left empty. |
| Grants.GetTokenRefreshWins | auth_utils.py:95-97 | When refresh succeeds, the session is the refresh: no prompt, one request, and the pasted code and code reply make no difference. |
| Grants.GetTokenFallsBackOnce | auth_utils.py:98-101 | When refresh fails, the URL is shown once and the code grant runs once, on the files refresh left. Its outcome is final and its request follows refresh's. |
| Grants.FallbackSession | auth_utils.py:95-101 | After a refresh failure that changed nothing, the session is exactly the code grant on the original files. |
| Grants.GetTokenErrorsComeFromFallback | auth_utils.py:95-101 | Every error the policy returns is the code grant's, after the prompt. |
| Grants.GetTokenNonAsciiCredentials | auth_utils.py:91-101 | Non-ASCII credentials fail both grants before anything is posted. The URL is still shown once and the files are untouched. |
| Scenarios.FirstRun | auth_utils.py:91-101 | With no token files and the pasted " ABC123\t", the policy shows the URL once, posts one request whose payload is "grant_type=authorization_code&code=ABC123", returns tok1 and leaves exactly the two files tok1 and ref1. |
| Scenarios.RefreshWithoutRotation | auth_utils.py:81-85 | A refresh reply without a new refresh token rewrites only the access-token file, and the old refresh token stays. |
| Scenarios.ExpiredRefreshToken | auth_utils.py:95-100 | A 401 on refresh falls back to the code grant. Both exact requests are posted in order and the caller sees only the new token. |
| Scenarios.NonStringTokenEmptiesFile | auth_utils.py:83 | A non-string access token on refresh, then a rejected code grant, leaves the access-token file empty and returns the rejection. |
| Scenarios.DefaultAuthString | auth_utils.py:15-24 | With the default id and secret, the credential is "YXBpLmNsaWVudDphcGkuc2VjcmV0". |

## Left out

- `connect_cas_https` (lines 105-112) and `cas.py`: they are the CAS session that consumes the token, outside the credential lifecycle.
- The logging mechanism (lines 11-12, 41, 60, 63, 84, 87, 97, 99): it has no effect on results or files. Line 40 is modelled: the authorization URL it logs for the user is the prompt recorded in `Session.prompts`, and only the logger that carries it is left out.
- `load_dotenv` and `os.getenv` (lines 9, 15-18): the environment is read once, so the configuration is a parameter. `CERT_PATH` is used only by `connect_cas_https`.
- `TOKEN_DIR` and `os.path.join` (lines 19, 28, 33): every file is in one directory, so a file name identifies a file.
- `input()` (line 42): the pasted text is a parameter. `EOFError` and `KeyboardInterrupt` at the prompt are not modelled.
- `requests.post` (lines 53, 79): the reply is a parameter. Redirects that `requests` follows are not modelled: the reply is the final one, and only the first POST is recorded, although a followed 307 or 308 re-posts the payload elsewhere and a 301, 302 or 303 becomes a GET without it. Certificate checking is off (`verify=False`), so no certificate error arises. Connection errors, timeouts and too many redirects become `TransportFailure`. The request is recorded as built, including the URL fragment that `requests` does not send.
- `response.json()` and `data[key]` (lines 55-57, 81-82): the body is reduced to a JSON object, other JSON, or not JSON. A field is reduced to a string or not a string. Indexing a non-object is the single error `NotAnObject`.
- Text-mode writes on Windows: `save_token` is modelled as on POSIX, with no `"\n"` to `"\r\n"` translation. On Windows, saving `"a\r\nb"` and loading it gives `"a\n\nb"`, where the model gives `"a\nb"`.
- Locale encodings: writing a token with a character the locale cannot encode empties the file and raises `UnicodeEncodeError`. Reading a file that does not decode raises `UnicodeDecodeError`. The model treats every string as writable and readable, which holds under UTF-8.
- Other OS errors on open, read or write (permissions, a directory in the way, a full disk) are not modelled. Only a missing file is.
- Strings are sequences of Unicode scalar values. Python strings that hold lone surrogates are not representable, and `.encode('ascii')` rejects them anyway.
- Exceptions other than `Exception` subclasses (e.g. `KeyboardInterrupt`), which `get_token` does not catch, are not modelled.
- Concurrent runs writing the same token files are not modelled.
- Base64.Decode: Python's lenient `b64decode` is not modelled. The source never decodes. The strict decoder exists as the encoder's partner and as a server's reading of the credential.

=== FILE: base64.dfy ===
/** Standard padded Base64 (section 4 of RFC 4648) over bytes, with a strict decoder.

    Three input bytes (24 bits) become four 6-bit values, each written as one character
    of the 64-character alphabet. A final group of one or two bytes is completed with
    zero bits and written with "==" or "=" in place of the characters that carry no
    input bits. The decoder accepts exactly the strings the encoder produces, so each
    is the other's inverse. */
module Base64 {
  import opened Outcomes

  type Byte = x: int | 0 <= x < 256
  type Sextet = x: int | 0 <= x < 64

  /** The four 6-bit values of a 24-bit group, most significant first. */
  datatype Quad = Quad(s0: Sextet, s1: Sextet, s2: Sextet, s3: Sextet)

  const Pad: char := '='

  /** The characters of Table 1 of RFC 4648: A-Z, a-z, 0-9, '+', '/'. */
  predicate IsAlphabetChar(c: char) {
    ('A' <= c <= 'Z') || ('a' <= c <= 'z') || ('0' <= c <= '9') || c == '+' || c == '/'
  }

  /** The value a character of the alphabet stands for. */
  function CharValue(c: char): Sextet
    requires IsAlphabetChar(c)
  {
    if 'A' <= c <= 'Z' then c as int - 'A' as int
    else if 'a' <= c <= 'z' then c as int - 'a' as int + 26
    else if '0' <= c <= '9' then c as int - '0' as int + 52
    else if c == '+' then 62
    else 63
  }

  /** The character of the alphabet that stands for `v`; CharValue undoes it. */
  function ValueChar(v: Sextet): (c: char)
    ensures IsAlphabetChar(c) && CharValue(c) == v
  {
    if v < 26 then ('A' as int + v) as char
    else if v < 52 then ('a' as int + (v - 26)) as char
    else if v < 62 then ('0' as int + (v - 52)) as char
    else if v == 62 then '+'
    else '/'
  }

  /** ValueChar undoes CharValue: the alphabet and the values 0..63 are in one-to-one correspondence. */
  lemma CharValueInverse(c: char)
    requires IsAlphabetChar(c)
    ensures ValueChar(CharValue(c)) == c
  {
  }

  /** Three bytes read as one 24-bit number and cut into four 6-bit values. */
  function Split(b0: Byte, b1: Byte, b2: Byte): Quad {
    Quad(b0 / 4, (b0 % 4) * 16 + b1 / 16, (b1 % 16) * 4 + b2 / 64, b2 % 64)
  }

  /** Four 6-bit values read as one 24-bit number and cut into three bytes. */
  function Join(q: Quad): (r: seq<Byte>)
    ensures |r| == 3
  {
    [q.s0 * 4 + q.s1 / 16, (q.s1 % 16) * 16 + q.s2 / 4, (q.s2 % 4) * 64 + q.s3]
  }

  /** Join undoes Split. */
  lemma JoinSplit(b0: Byte, b1: Byte, b2: Byte)
    ensures Join(Split(b0, b1, b2)) == [b0, b1, b2]
  {
    var q := Split(b0, b1, b2);
    assert q.s1 / 16 == b0 % 4 && q.s1 % 16 == b1 / 16;
    assert q.s2 / 4 == b1 % 16 && q.s2 % 4 == b2 / 64;
  }

  /** Split undoes Join. */
  lemma SplitJoin(q: Quad)
    ensures var g := Join(q); Split(g[0], g[1], g[2]) == q
  {
    var g := Join(q);
    assert g[0] / 4 == q.s0 && g[0] % 4 == q.s1 / 16;
    assert g[1] / 16 == q.s1 % 16 && g[1] % 16 == q.s2 / 4;
    assert g[2] / 64 == q.s2 % 4 && g[2] % 64 == q.s3;
  }

  /** Zero trailing bytes give zero trailing 6-bit values. */
  lemma SplitZeros(b0: Byte, b1: Byte)
    ensures Split(b0, 0, 0).s2 == 0 && Split(b0, 0, 0).s3 == 0
    ensures Split(b0, b1, 0).s3 == 0
  {
  }

  /** The number of '=' the encoding of `n` bytes ends with. */
  function PadCount(n: nat): nat {
    (3 - n % 3) % 3
  }

  /** Four characters for three whole bytes. */
  function EncodeGroup(b0: Byte, b1: Byte, b2: Byte): (r: string)
    ensures |r| == 4 && forall i :: 0 <= i < 4 ==> IsAlphabetChar(r[i])
  {
    var q := Split(b0, b1, b2);
    [ValueChar(q.s0), ValueChar(q.s1), ValueChar(q.s2), ValueChar(q.s3)]
  }

  /** The padded Base64 text of `b`. */
  function Encode(b: seq<Byte>): (r: string)
    ensures |r| % 4 == 0
    ensures |r| == 0 <==> |b| == 0
    decreases |b|
  {
    if |b| == 0 then ""
    else if |b| == 1 then
      var q := Split(b[0], 0, 0);
      [ValueChar(q.s0), ValueChar(q.s1), Pad, Pad]
    else if |b| == 2 then
      var q := Split(b[0], b[1], 0);
      [ValueChar(q.s0), ValueChar(q.s1), ValueChar(q.s2), Pad]
    else
      EncodeGroup(b[0], b[1], b[2]) + Encode(b[3..])
  }

  /** `r` is alphabet characters followed by exactly `pad` padding characters. */
  predicate PaddedText(r: string, pad: int) {
    && 0 <= pad <= |r|
    && (forall i :: 0 <= i < |r| - pad ==> IsAlphabetChar(r[i]))
    && (forall i :: |r| - pad <= i < |r| ==> r[i] == Pad)
  }

  lemma PrependGroup(g: string, rest: string, pad: int)
    requires |g| == 4 && forall i :: 0 <= i < 4 ==> IsAlphabetChar(g[i])
    requires PaddedText(rest, pad)
    ensures PaddedText(g + rest, pad)
  {
    var r := g + rest;
    forall i | 4 <= i < |r| ensures r[i] == rest[i - 4] { }
  }

  /** The text uses only the alphabet, followed by PadCount(|b|) padding characters: none,
      "=" or "==". */
  lemma {:induction false} EncodeAlphabet(b: seq<Byte>)
    ensures PaddedText(Encode(b), PadCount(|b|))
    decreases |b|
  {
    if |b| > 2 {
      var tail := b[3..];
      EncodeAlphabet(tail);
      assert PadCount(|b|) == PadCount(|tail|);
      PrependGroup(EncodeGroup(b[0], b[1], b[2]), Encode(tail), PadCount(|tail|));
    }
  }

  /** Three bytes from four alphabet characters. */
  function DecodeGroup(c0: char, c1: char, c2: char, c3: char): Option<seq<Byte>>
  {
    if IsAlphabetChar(c0) && IsAlphabetChar(c1) && IsAlphabetChar(c2) && IsAlphabetChar(c3) then
      Some(Join(Quad(CharValue(c0), CharValue(c1), CharValue(c2), CharValue(c3))))
    else None
  }

  /** The last four characters, which may end in "==" (one byte) or "=" (two bytes).
      The bits a padded group leaves unused must be zero (section 3.5 of RFC 4648). */
  function DecodeFinal(c0: char, c1: char, c2: char, c3: char): Option<seq<Byte>>
  {
    if !IsAlphabetChar(c0) || !IsAlphabetChar(c1) then None
    else if c2 == Pad && c3 == Pad then
      var g := Join(Quad(CharValue(c0), CharValue(c1), 0, 0));
      if g[1] == 0 then Some(g[..1]) else None
    else if IsAlphabetChar(c2) && c3 == Pad then
      var g := Join(Quad(CharValue(c0), CharValue(c1), CharValue(c2), 0));
      if g[2] == 0 then Some(g[..2]) else None
    else DecodeGroup(c0, c1, c2, c3)
  }

  /** The bytes a padded Base64 text stands for, or None when it is not the encoding of anything. */
  function Decode(s: string): (r: Option<seq<Byte>>)
    decreases |s|
  {
    if |s| == 0 then Some([])
    else if |s| < 4 then None
    else if |s| == 4 then DecodeFinal(s[0], s[1], s[2], s[3])
    else
      match DecodeGroup(s[0], s[1], s[2], s[3])
      case None => None
      case Some(g) =>
        match Decode(s[4..])
        case None => None
        case Some(rest) => Some(g + rest)
  }

  lemma GroupRoundTrip(b0: Byte, b1: Byte, b2: Byte)
    ensures var e := EncodeGroup(b0, b1, b2);
            DecodeGroup(e[0], e[1], e[2], e[3]) == Some([b0, b1, b2])
  {
    JoinSplit(b0, b1, b2);
  }

  lemma OneByteRoundTrip(x: Byte)
    ensures Decode(Encode([x])) == Some([x])
  {
    var q := Split(x, 0, 0);
    var e := Encode([x]);
    assert e == [ValueChar(q.s0), ValueChar(q.s1), Pad, Pad];
    SplitZeros(x, 0);
    JoinSplit(x, 0, 0);
    assert IsAlphabetChar(e[0]) && CharValue(e[0]) == q.s0;
    assert IsAlphabetChar(e[1]) && CharValue(e[1]) == q.s1;
    assert e[2] == Pad && e[3] == Pad;
    assert Quad(CharValue(e[0]), CharValue(e[1]), 0, 0) == q;
    assert Join(q)[1] == 0;
    assert DecodeFinal(e[0], e[1], e[2], e[3]) == Some(Join(q)[..1]);
    assert Join(q)[..1] == [x];
    assert Decode(e) == DecodeFinal(e[0], e[1], e[2], e[3]);
  }

  lemma TwoBytesRoundTrip(x0: Byte, x1: Byte)
    ensures Decode(Encode([x0, x1])) == Some([x0, x1])
  {
    var q := Split(x0, x1, 0);
    var e := Encode([x0, x1]);
    assert e == [ValueChar(q.s0), ValueChar(q.s1), ValueChar(q.s2), Pad];
    SplitZeros(x0, x1);
    JoinSplit(x0, x1, 0);
    assert IsAlphabetChar(e[0]) && CharValue(e[0]) == q.s0;
    assert IsAlphabetChar(e[1]) && CharValue(e[1]) == q.s1;
    assert IsAlphabetChar(e[2]) && CharValue(e[2]) == q.s2;
    assert e[3] == Pad;
    assert Quad(CharValue(e[0]), CharValue(e[1]), CharValue(e[2]), 0) == q;
    assert Join(q)[2] == 0;
    assert DecodeFinal(e[0], e[1], e[2], e[3]) == Some(Join(q)[..2]);
    assert Join(q)[..2] == [x0, x1];
    assert Decode(e) == DecodeFinal(e[0], e[1], e[2], e[3]);
  }

  /** Every started group of three bytes becomes four characters. */
  lemma {:induction false} EncodeLength(b: seq<Byte>)
    ensures |Encode(b)| == 4 * ((|b| + 2) / 3)
    decreases |b|
  {
    if |b| >= 3 {
      EncodeLength(b[3..]);
      EncodeStep(b);
      assert (|b| + 2) / 3 == (|b[3..]| + 2) / 3 + 1;
    }
  }

  /** One step of the encoder on three or more bytes. */
  lemma EncodeStep(b: seq<Byte>)
    requires |b| >= 3
    ensures Encode(b) == EncodeGroup(b[0], b[1], b[2]) + Encode(b[3..])
  {
  }

  /** One step of the decoder, read forwards. */
  lemma DecodeCons(s: string, g: seq<Byte>, rest: seq<Byte>)
    requires |s| > 4
    requires DecodeGroup(s[0], s[1], s[2], s[3]) == Some(g)
    requires Decode(s[4..]) == Some(rest)
    ensures Decode(s) == Some(g + rest)
  {
  }

  /** One step of the decoder, read backwards. */
  lemma DecodeUncons(s: string)
    requires |s| > 4 && Decode(s).Some?
    ensures DecodeGroup(s[0], s[1], s[2], s[3]).Some? && Decode(s[4..]).Some?
    ensures Decode(s).value == DecodeGroup(s[0], s[1], s[2], s[3]).value + Decode(s[4..]).value
  {
  }

  /** Three bytes on their own decode back from their four characters. */
  lemma LastGroupRoundTrip(x0: Byte, x1: Byte, x2: Byte)
    ensures Decode(Encode([x0, x1, x2])) == Some([x0, x1, x2])
  {
    var b := [x0, x1, x2];
    var e := Encode(b);
    assert b[3..] == [];
    EncodeStep(b);
    assert e == EncodeGroup(x0, x1, x2);
    assert !IsAlphabetChar(Pad);
    assert Decode(e) == DecodeFinal(e[0], e[1], e[2], e[3]);
    GroupRoundTrip(x0, x1, x2);
  }

  /** A whole group in front of a non-empty text the decoder undoes is undone too. */
  lemma GroupConsRoundTrip(x0: Byte, x1: Byte, x2: Byte, tail: seq<Byte>)
    requires tail != [] && Decode(Encode(tail)) == Some(tail)
    ensures Decode(Encode([x0, x1, x2] + tail)) == Some([x0, x1, x2] + tail)
  {
    var b := [x0, x1, x2] + tail;
    var e := Encode(b);
    var h := EncodeGroup(x0, x1, x2);
    var t := Encode(tail);
    assert b[3..] == tail;
    EncodeStep(b);
    assert e[..4] == h && e[4..] == t;
    GroupRoundTrip(x0, x1, x2);
    DecodeCons(e, [x0, x1, x2], tail);
  }

  /** Decoding undoes encoding. */
  lemma {:induction false} DecodeEncode(b: seq<Byte>)
    ensures Decode(Encode(b)) == Some(b)
    decreases |b|
  {
    if |b| == 1 {
      assert b == [b[0]];
      OneByteRoundTrip(b[0]);
    } else if |b| == 2 {
      assert b == [b[0], b[1]];
      TwoBytesRoundTrip(b[0], b[1]);
    } else if |b| == 3 {
      assert b == [b[0], b[1], b[2]];
      LastGroupRoundTrip(b[0], b[1], b[2]);
    } else if |b| > 3 {
      var tail := b[3..];
      assert b == [b[0], b[1], b[2]] + tail;
      DecodeEncode(tail);
      GroupConsRoundTrip(b[0], b[1], b[2], tail);
    }
  }

  lemma GroupCanonical(c0: char, c1: char, c2: char, c3: char)
    requires DecodeGroup(c0, c1, c2, c3).Some?
    ensures var g := DecodeGroup(c0, c1, c2, c3).value;
            |g| == 3 && EncodeGroup(g[0], g[1], g[2]) == [c0, c1, c2, c3]
  {
    SplitJoin(Quad(CharValue(c0), CharValue(c1), CharValue(c2), CharValue(c3)));
    CharValueInverse(c0); CharValueInverse(c1); CharValueInverse(c2); CharValueInverse(c3);
  }

  lemma OneByteCanonical(c0: char, c1: char)
    requires DecodeFinal(c0, c1, Pad, Pad).Some?
    ensures Encode(DecodeFinal(c0, c1, Pad, Pad).value) == [c0, c1, Pad, Pad]
  {
    var q := Quad(CharValue(c0), CharValue(c1), 0, 0);
    var g := Join(q);
    SplitJoin(q);
    assert g == [g[0], 0, 0];
    CharValueInverse(c0); CharValueInverse(c1);
  }

  lemma TwoBytesCanonical(c0: char, c1: char, c2: char)
    requires IsAlphabetChar(c2) && DecodeFinal(c0, c1, c2, Pad).Some?
    ensures Encode(DecodeFinal(c0, c1, c2, Pad).value) == [c0, c1, c2, Pad]
  {
    var q := Quad(CharValue(c0), CharValue(c1), CharValue(c2), 0);
    var g := Join(q);
    SplitJoin(q);
    assert g == [g[0], g[1], 0];
    CharValueInverse(c0); CharValueInverse(c1); CharValueInverse(c2);
  }

  /** The last group decodes only to bytes whose encoding is that group. */
  lemma FinalCanonical(c0: char, c1: char, c2: char, c3: char)
    requires DecodeFinal(c0, c1, c2, c3).Some?
    ensures Encode(DecodeFinal(c0, c1, c2, c3).value) == [c0, c1, c2, c3]
  {
    if c2 == Pad && c3 == Pad {
      OneByteCanonical(c0, c1);
    } else if IsAlphabetChar(c2) && c3 == Pad {
      TwoBytesCanonical(c0, c1, c2);
    } else {
      GroupCanonical(c0, c1, c2, c3);
      var g := DecodeFinal(c0, c1, c2, c3).value;
      assert Encode(g) == EncodeGroup(g[0], g[1], g[2]) + Encode(g[3..]);
    }
  }

  lemma SeqOfFour(s: string)
    requires |s| == 4
    ensures s == [s[0], s[1], s[2], s[3]]
  {
  }

  lemma DecodeFour(s: string)
    requires |s| == 4
    ensures Decode(s) == DecodeFinal(s[0], s[1], s[2], s[3])
  {
  }

  /** A text of one group decodes only to bytes whose encoding it is. */
  lemma FourCanonical(s: string)
    requires |s| == 4 && Decode(s).Some?
    ensures Encode(Decode(s).value) == s
  {
    SeqOfFour(s);
    DecodeFour(s);
    FinalCanonical(s[0], s[1], s[2], s[3]);
  }

  /** GroupCanonical for the first four characters of a longer text. */
  lemma PrefixCanonical(s: string)
    requires |s| >= 4 && DecodeGroup(s[0], s[1], s[2], s[3]).Some?
    ensures var g := DecodeGroup(s[0], s[1], s[2], s[3]).value;
            |g| == 3 && EncodeGroup(g[0], g[1], g[2]) == s[..4]
  {
    assert s[..4] == [s[0], s[1], s[2], s[3]];
    GroupCanonical(s[0], s[1], s[2], s[3]);
  }

  /** A whole group in front of a text whose decoding re-encodes to it re-encodes too. */
  lemma ConsCanonical(s: string)
    requires |s| > 4 && Decode(s).Some?
    requires Decode(s[4..]).Some? && Encode(Decode(s[4..]).value) == s[4..]
    ensures Encode(Decode(s).value) == s
  {
    assert s == s[..4] + s[4..];
    DecodeUncons(s);
    var b := Decode(s).value;
    var g := DecodeGroup(s[0], s[1], s[2], s[3]).value;
    var rest := Decode(s[4..]).value;
    assert |b| >= 3 && b[0] == g[0] && b[1] == g[1] && b[2] == g[2] && b[3..] == rest;
    EncodeStep(b);
    PrefixCanonical(s);
  }

  /** Encoding undoes decoding: only the encoder's own output decodes. */
  lemma {:induction false} EncodeDecode(s: string)
    requires Decode(s).Some?
    ensures Encode(Decode(s).value) == s
    decreases |s|
  {
    if |s| == 4 {
      FourCanonical(s);
    } else if |s| > 4 {
      DecodeUncons(s);
      EncodeDecode(s[4..]);
      ConsCanonical(s);
    }
  }

  /** The decoder accepts a text exactly when it is the encoding of the bytes it returns. */
  lemma DecodeIff(s: string, b: seq<Byte>)
    ensures Decode(s) == Some(b) <==> Encode(b) == s
  {
    if Decode(s) == Some(b) {
      EncodeDecode(s);
    }
    if Encode(b) == s {
      DecodeEncode(b);
    }
  }
}

=== FILE: credentials.dfy ===
/** Client configuration and the HTTP Basic credential built from it (section 2 of RFC 7617). */
module Credentials {
  import opened Outcomes
  import Base64

  /** The values read once from the environment; this model takes them as a parameter. */
  datatype Config = Config(clientId: string, clientSecret: string, baseUrl: string)

  /** The configuration used when no environment variable overrides it. */
  const DefaultConfig := Config("api.client", "api.secret", "https://create.demo.sas.com")

  predicate IsAscii(s: string) {
    forall i :: 0 <= i < |s| ==> (s[i] as int) < 128
  }

  /** `s.encode('ascii')`: one byte per character, or a failure when some character is outside ASCII. */
  function AsciiEncode(s: string): (r: Option<seq<Base64.Byte>>)
    ensures r.Some? <==> IsAscii(s)
    ensures r.Some? ==> |r.value| == |s| && forall i :: 0 <= i < |s| ==> r.value[i] == s[i] as int
    decreases |s|
  {
    if s == [] then Some([])
    else if (s[0] as int) >= 128 then None
    else
      match AsciiEncode(s[1..])
      case None => None
      case Some(rest) => Some([s[0] as int] + rest)
  }

  /** `b.decode('ascii')` for bytes below 128: one character per byte. */
  function AsciiDecode(b: seq<Base64.Byte>): (s: string)
    requires forall i :: 0 <= i < |b| ==> b[i] < 128
    ensures |s| == |b| && forall i :: 0 <= i < |b| ==> s[i] as int == b[i]
  {
    seq(|b|, i requires 0 <= i < |b| => b[i] as char)
  }

  /** Decoding the bytes of an ASCII string gives the string back. */
  lemma AsciiRoundTrip(s: string)
    requires IsAscii(s)
    ensures forall i :: 0 <= i < |s| ==> AsciiEncode(s).value[i] < 128
    ensures AsciiDecode(AsciiEncode(s).value) == s
  {
  }

  /** The user-pass string of RFC 7617: client id, a colon, client secret. */
  function UserPass(cfg: Config): string {
    cfg.clientId + ":" + cfg.clientSecret
  }

  /** `_get_base64_auth_string()`: the Base64 text of the ASCII bytes of the user-pass string. */
  function BasicAuthString(cfg: Config): (r: Result<string>)
    ensures r.Err? <==> !IsAscii(UserPass(cfg))
    ensures r.Err? ==> r.error == NonAsciiCredentials
    ensures r.Ok? ==> |r.value| == 4 * ((|cfg.clientId| + |cfg.clientSecret| + 3) / 3)
    ensures r.Ok? ==> Base64.Decode(r.value) == AsciiEncode(UserPass(cfg))
  {
    match AsciiEncode(UserPass(cfg))
    case None => Err(NonAsciiCredentials)
    case Some(b) =>
      Base64.DecodeEncode(b);
      Base64.EncodeLength(b);
      Ok(Base64.Encode(b))
  }

  /** The value of the Authorization header of both token requests. */
  function AuthorizationValue(cfg: Config): Result<string> {
    match BasicAuthString(cfg)
    case Err(e) => Err(e)
    case Ok(a) => Ok("Basic " + a)
  }

  /** Everything the Base64 text contains is ASCII, so `.decode('ascii')` of it cannot fail. */
  lemma AuthStringIsAscii(cfg: Config)
    requires BasicAuthString(cfg).Ok?
    ensures IsAscii(BasicAuthString(cfg).value)
  {
    var b := AsciiEncode(UserPass(cfg)).value;
    var r := Base64.Encode(b);
    Base64.EncodeAlphabet(b);
    forall i | 0 <= i < |r| ensures (r[i] as int) < 128 {
      assert Base64.IsAlphabetChar(r[i]) || r[i] == Base64.Pad;
    }
  }

  /** The server's reading of a user-pass string: everything before the first colon is the user id. */
  function SplitUserPass(s: string): (r: Option<(string, string)>)
    ensures r.None? <==> ':' !in s
    ensures r.Some? ==> s == r.value.0 + ":" + r.value.1 && ':' !in r.value.0
    decreases |s|
  {
    if s == [] then None
    else if s[0] == ':' then Some(([], s[1..]))
    else
      match SplitUserPass(s[1..])
      case None => None
      case Some((user, pass)) => Some(([s[0]] + user, pass))
  }

  /** A server that decodes the credential recovers exactly the configured id and secret,
      provided the id has no colon, as section 2 of RFC 7617 requires of a user-id. */
  lemma {:induction false} BasicAuthRecoversCredentials(cfg: Config)
    requires BasicAuthString(cfg).Ok?
    requires ':' !in cfg.clientId
    ensures var bytes := Base64.Decode(BasicAuthString(cfg).value);
            && bytes.Some?
            && (forall i :: 0 <= i < |bytes.value| ==> bytes.value[i] < 128)
            && SplitUserPass(AsciiDecode(bytes.value)) == Some((cfg.clientId, cfg.clientSecret))
  {
    AsciiRoundTrip(UserPass(cfg));
    SplitAfterColonFree(cfg.clientId, cfg.clientSecret);
  }

  lemma {:induction false} SplitAfterColonFree(user: string, pass: string)
    requires ':' !in user
    ensures SplitUserPass(user + ":" + pass) == Some((user, pass))
    decreases |user|
  {
    if user == [] {
      assert user + ":" + pass == [':'] + pass;
    } else {
      assert (user + ":" + pass)[1..] == user[1..] + ":" + pass;
      assert [user[0]] + user[1..] == user;
      SplitAfterColonFree(user[1..], pass);
    }
  }

  const AuthorizePath := "/SASLogon/oauth/authorize?client_id="
  const ResponseTypeCode := "&response_type=code"

  /** The authorization-request URL shown to the user (section 4.1.1 of RFC 6749).
      The client id is inserted verbatim, without percent-encoding. */
  function AuthorizeUrl(cfg: Config): (r: string)
    ensures |r| == |cfg.baseUrl| + |AuthorizePath| + |cfg.clientId| + |ResponseTypeCode|
    ensures r[..|cfg.baseUrl|] == cfg.baseUrl
    ensures r[|cfg.baseUrl|..|cfg.baseUrl| + |AuthorizePath|] == AuthorizePath
    ensures var k := |cfg.baseUrl| + |AuthorizePath|;
            r[k..k + |cfg.clientId|] == cfg.clientId
    ensures r[|r| - |ResponseTypeCode|..] == ResponseTypeCode
  {
    var r := cfg.baseUrl + AuthorizePath + cfg.clientId + ResponseTypeCode;
    assert r[..|cfg.baseUrl|] == cfg.baseUrl;
    r
  }
}

=== FILE: grants.dfy ===
/** The two OAuth2 grants (sections 4.1.3 and 6 of RFC 6749) and the policy that
    chooses between them. The server's reply and the pasted authorization code are
    parameters; each grant returns the request it posted, its outcome and the new store. */
module Grants {
  import opened Outcomes
  import Text
  import opened Http
  import opened TokenStore
  import opened Credentials

  /** One grant attempt: the request posted (None when it failed before posting),
      the access token or error, and the token files afterwards. */
  datatype Attempt = Attempt(sent: Option<Request>, result: Result<string>, store: Store)

  /** One call of the policy: its outcome, the token files afterwards, the authorization
      URLs shown to the user and the requests posted, in order. */
  datatype Session = Session(result: Result<string>, store: Store, prompts: seq<string>, requests: seq<Request>)

  const TokenPath := "/SASLogon/oauth/token"
  const CodeGrantPrefix := "grant_type=authorization_code&code="
  const RefreshGrantPrefix := "grant_type=refresh_token&refresh_token="

  function CodeTokenUrl(cfg: Config): string {
    cfg.baseUrl + TokenPath + "#authorization_code"
  }

  function RefreshTokenUrl(cfg: Config): string {
    cfg.baseUrl + TokenPath + "#refresh_token"
  }

  /** The headers both token requests carry. */
  function TokenHeaders(authorization: string): map<string, string> {
    map["Accept" := "application/json",
        "Content-Type" := "application/x-www-form-urlencoded",
        "Authorization" := authorization]
  }

  /** `st` and `st'` hold the same files with the same contents, except possibly the files in `written`. */
  predicate Unchanged(st: Store, st': Store, written: set<string>) {
    && st.Keys - written == st'.Keys - written
    && (forall f :: f in st && f !in written ==> f in st' && st'[f] == st[f])
  }

  /** Leaving a set of files alone leaves alone any set of files outside a larger set. */
  lemma UnchangedWiden(st: Store, st': Store, written: set<string>, more: set<string>)
    requires Unchanged(st, st', written) && written <= more
    ensures Unchanged(st, st', more)
  {
    assert st.Keys - more == (st.Keys - written) - more;
    assert st'.Keys - more == (st'.Keys - written) - more;
  }

  /** Two steps that each leave the files outside `written` alone leave them alone together. */
  lemma UnchangedChain(st: Store, st': Store, st'': Store, written: set<string>)
    requires Unchanged(st, st', written) && Unchanged(st', st'', written)
    ensures Unchanged(st, st'', written)
  {
    forall f | f in st && f !in written
      ensures f in st'' && st''[f] == st[f]
    {
      assert f in st' && st'[f] == st[f];
    }
  }

  /** `save_token(value, file)` for a value taken from the reply. Opening the file for writing
      empties it before `write` runs, so a value that is not a string leaves the file empty
      and the write fails. */
  function StoreToken(st: Store, file: string, key: string, value: Json): (r: (Store, Result<string>))
    ensures r.0.Keys == st.Keys + {file} && Unchanged(st, r.0, {file})
    ensures r.1.Ok? <==> value.JString?
    ensures r.1.Ok? ==> r.1.value == value.text && r.0[file] == value.text
    ensures r.1.Err? ==> r.1.error == NotAString(key) && r.0[file] == ""
  {
    match value
    case JString(t) => (Save(st, file, t), Ok(t))
    case JNonString => (Save(st, file, ""), Err(NotAString(key)))
  }

  function SentRequests(sent: Option<Request>): seq<Request> {
    match sent
    case None => []
    case Some(req) => [req]
  }

  /** A file outside the written set loads as it did before. */
  lemma UnchangedLoad(st: Store, st': Store, written: set<string>, file: string)
    requires Unchanged(st, st', written) && file !in written
    ensures Load(st', file) == Load(st, file)
  {
    assert file in st <==> file in st.Keys - written;
    assert file in st' <==> file in st'.Keys - written;
  }

  /** The two token files are different files. */
  lemma TokenFilesDiffer()
    ensures AccessTokenFile != RefreshTokenFile
    ensures RefreshTokenFile !in {AccessTokenFile}
  {
    assert |AccessTokenFile| != |RefreshTokenFile|;
  }

  /** The POST of `refresh_access_token()`, carrying the loaded refresh token verbatim. */
  function RefreshRequest(cfg: Config, auth: string, refresh: string): Request {
    Request(RefreshTokenUrl(cfg), TokenHeaders(auth), RefreshGrantPrefix + refresh)
  }

  /** The POST of `generate_access_token()`, carrying the stripped pasted code verbatim. */
  function CodeRequest(cfg: Config, auth: string, code: string): Request {
    Request(CodeTokenUrl(cfg), TokenHeaders(auth), CodeGrantPrefix + code)
  }

  /** The reply half of `refresh_access_token()`: check the status, parse the body,
      read `access_token` and save it. */
  function SaveAccess(st: Store, req: Request, reply: Response): (r: Attempt)
    ensures r.sent == Some(req)
    ensures Unchanged(st, r.store, {AccessTokenFile})
    ensures r.result.Ok? <==> CarriesToken(reply, "access_token")
    ensures r.result.Ok? ==> r.result.value == TokenIn(reply, "access_token")
    ensures r.result.Ok? ==> r.store == Save(st, AccessTokenFile, r.result.value)
    ensures r.result.Err? && r.result.error != NotAString("access_token") ==> r.store == st
    ensures r.result == Err(NotAString("access_token")) ==> r.store == Save(st, AccessTokenFile, "")
    ensures r.result == Err(NotAString("access_token")) <==> NonStringToken(reply, "access_token")
  {
    match ReplyObject(reply)
    case Err(e) => Attempt(Some(req), Err(e), st)
    case Ok(fields) =>
      match Field(fields, "access_token")
      case Err(e) => Attempt(Some(req), Err(e), st)
      case Ok(access) =>
        var (st', res) := StoreToken(st, AccessTokenFile, "access_token", access);
        Attempt(Some(req), res, st')
  }

  /** `refresh_access_token()`: load the refresh token, post it, and save the returned access token. */
  function RefreshAccessToken(cfg: Config, st: Store, reply: Response): (r: Attempt)
    ensures Unchanged(st, r.store, {AccessTokenFile})
    ensures r.sent.None? <==> RefreshTokenFile !in st || !IsAscii(UserPass(cfg))
    ensures r.sent.None? ==> r.result.Err? && r.store == st
    ensures r.sent.Some? ==>
              r.sent.value == RefreshRequest(cfg, "Basic " + BasicAuthString(cfg).value,
                                             Load(st, RefreshTokenFile).value)
    ensures r.result.Ok? ==> r.store == Save(st, AccessTokenFile, r.result.value)
  {
    match Load(st, RefreshTokenFile)
    case Err(e) => Attempt(None, Err(e), st)
    case Ok(refresh) =>
      match AuthorizationValue(cfg)
      case Err(e) => Attempt(None, Err(e), st)
      case Ok(auth) => SaveAccess(st, RefreshRequest(cfg, auth, refresh), reply)
  }

  /** The saving half of `generate_access_token()`: the access token first, then the refresh
      token, stopping at the first value that is not a string. */
  function SaveBoth(st: Store, req: Request, access: Json, refresh: Json): (r: Attempt)
    ensures Unchanged(st, r.store, {AccessTokenFile, RefreshTokenFile})
    ensures r.sent == Some(req)
    ensures r.result.Ok? <==> access.JString? && refresh.JString?
    ensures r.result.Ok? ==>
              && r.result.value == access.text
              && r.store == Save(Save(st, AccessTokenFile, access.text), RefreshTokenFile, refresh.text)
    ensures r.result == Err(NotAString("access_token")) <==> !access.JString?
    ensures !access.JString? ==> r.store == Save(st, AccessTokenFile, "")
    ensures r.result == Err(NotAString("refresh_token")) <==> access.JString? && !refresh.JString?
    ensures access.JString? && !refresh.JString? ==>
              r.store == Save(Save(st, AccessTokenFile, access.text), RefreshTokenFile, "")
  {
    var (st1, res1) := StoreToken(st, AccessTokenFile, "access_token", access);
    if res1.Err? then Attempt(Some(req), res1, st1)
    else
      var (st2, res2) := StoreToken(st1, RefreshTokenFile, "refresh_token", refresh);
      if res2.Err? then Attempt(Some(req), res2, st2)
      else Attempt(Some(req), res1, st2)
  }

  /** `generate_access_token()`: exchange the pasted code and save both returned tokens.
      Both fields are read before either file is written. */
  function GenerateAccessToken(cfg: Config, st: Store, pasted: string, reply: Response): (r: Attempt)
    ensures Unchanged(st, r.store, {AccessTokenFile, RefreshTokenFile})
    ensures r.sent.None? <==> !IsAscii(UserPass(cfg))
    ensures r.sent.None? ==> r.result.Err? && r.store == st
    ensures r.sent.Some? ==>
              r.sent.value == CodeRequest(cfg, "Basic " + BasicAuthString(cfg).value, Text.Strip(pasted))
  {
    var code := Text.Strip(pasted);
    match AuthorizationValue(cfg)
    case Err(e) => Attempt(None, Err(e), st)
    case Ok(auth) =>
      var req := CodeRequest(cfg, auth, code);
      match ReplyObject(reply)
      case Err(e) => Attempt(Some(req), Err(e), st)
      case Ok(fields) =>
        match Field(fields, "access_token")
        case Err(e) => Attempt(Some(req), Err(e), st)
        case Ok(access) =>
          match Field(fields, "refresh_token")
          case Err(e) => Attempt(Some(req), Err(e), st)
          case Ok(refresh) => SaveBoth(st, req, access, refresh)
  }

  /** `get_token()`: refresh first; if that fails for any reason, show the authorization
      URL and run the authorization-code grant once, whose outcome is final. */
  function GetToken(cfg: Config, st: Store, refreshReply: Response, pasted: string, codeReply: Response): (s: Session)
    ensures |s.prompts| <= 1 && |s.requests| <= 2
    ensures s.prompts == [] <==> RefreshAccessToken(cfg, st, refreshReply).result.Ok?
    ensures s.prompts != [] ==> s.prompts == [AuthorizeUrl(cfg)]
    ensures Unchanged(st, s.store, {AccessTokenFile, RefreshTokenFile})
  {
    var r := RefreshAccessToken(cfg, st, refreshReply);
    if r.result.Ok? then
      UnchangedWiden(st, r.store, {AccessTokenFile}, {AccessTokenFile, RefreshTokenFile});
      Session(r.result, r.store, [], SentRequests(r.sent))
    else
      var g := GenerateAccessToken(cfg, r.store, pasted, codeReply);
      var both := {AccessTokenFile, RefreshTokenFile};
      UnchangedWiden(st, r.store, {AccessTokenFile}, both);
      UnchangedChain(st, r.store, g.store, both);
      Session(g.result, g.store, [AuthorizeUrl(cfg)], SentRequests(r.sent) + SentRequests(g.sent))
  }

  /** The reply is one the grants accept and carries a string under `key`. */
  predicate CarriesToken(reply: Response, key: string) {
    && reply.Reply? && !IsErrorStatus(reply.status) && reply.body.Object?
    && key in reply.body.fields && reply.body.fields[key].JString?
  }

  /** The reply is one the grants accept and has a field `key` that is not a string. */
  predicate NonStringToken(reply: Response, key: string) {
    && reply.Reply? && !IsErrorStatus(reply.status) && reply.body.Object?
    && key in reply.body.fields && reply.body.fields[key].JNonString?
  }

  function TokenIn(reply: Response, key: string): string
    requires CarriesToken(reply, key)
  {
    reply.body.fields[key].text
  }

  /** Without a saved refresh token, refresh fails before anything is posted and touches nothing. */
  lemma RefreshWithoutRefreshFile(cfg: Config, st: Store, reply: Response)
    requires RefreshTokenFile !in st
    ensures RefreshAccessToken(cfg, st, reply) == Attempt(None, Err(NotFound(RefreshTokenFile)), st)
  {
  }

  /** Refresh succeeds exactly when a refresh token is saved, the credentials are ASCII and the
      reply carries a string access token. It then posts the saved token verbatim and returns
      and saves the new access token. */
  lemma RefreshSucceedsIff(cfg: Config, st: Store, reply: Response)
    ensures var r := RefreshAccessToken(cfg, st, reply);
            r.result.Ok? <==> RefreshTokenFile in st && IsAscii(UserPass(cfg)) && CarriesToken(reply, "access_token")
    ensures var r := RefreshAccessToken(cfg, st, reply);
            r.result.Ok? ==>
              && r.result.value == TokenIn(reply, "access_token")
              && r.store == Save(st, AccessTokenFile, r.result.value)
              && r.sent == Some(RefreshRequest(cfg, "Basic " + BasicAuthString(cfg).value,
                                               Load(st, RefreshTokenFile).value))
  {
    var r := RefreshAccessToken(cfg, st, reply);
    if r.sent.Some? {
      var req := RefreshRequest(cfg, "Basic " + BasicAuthString(cfg).value, Load(st, RefreshTokenFile).value);
      assert r == SaveAccess(st, req, reply);
    }
  }

  /** A failed refresh leaves the files as they were, except that a non-string access token
      leaves the access-token file empty. */
  lemma RefreshFailureStore(cfg: Config, st: Store, reply: Response)
    ensures var r := RefreshAccessToken(cfg, st, reply);
            r.result.Err? && r.result.error != NotAString("access_token") ==> r.store == st
    ensures var r := RefreshAccessToken(cfg, st, reply);
            r.result == Err(NotAString("access_token")) ==> r.store == Save(st, AccessTokenFile, "")
  {
    var r := RefreshAccessToken(cfg, st, reply);
    if r.sent.Some? {
      var req := RefreshRequest(cfg, "Basic " + BasicAuthString(cfg).value, Load(st, RefreshTokenFile).value);
      assert r == SaveAccess(st, req, reply);
    }
  }

  /** A rejected refresh request (4xx or 5xx) surfaces its status and writes nothing. */
  lemma RefreshHttpError(cfg: Config, st: Store, reply: Response)
    requires RefreshTokenFile in st && IsAscii(UserPass(cfg))
    requires reply.Reply? && IsErrorStatus(reply.status)
    ensures RefreshAccessToken(cfg, st, reply).result == Err(HttpStatus(reply.status))
    ensures RefreshAccessToken(cfg, st, reply).store == st
  {
  }

  /** `data['access_token']` is read before anything is saved: a failed transport, a rejected
      reply, a body that is not an object or a missing field leaves the files untouched. */
  lemma RefreshReadsBeforeWriting(cfg: Config, st: Store, reply: Response)
    requires reply.TransportFailure? || IsErrorStatus(reply.status) || !reply.body.Object?
             || "access_token" !in reply.body.fields
    ensures RefreshAccessToken(cfg, st, reply).result.Err?
    ensures RefreshAccessToken(cfg, st, reply).store == st
  {
  }

  /** A present access token that is not a string empties the access-token file and fails. */
  lemma RefreshNonStringAccess(cfg: Config, st: Store, reply: Response)
    requires RefreshTokenFile in st && IsAscii(UserPass(cfg))
    requires NonStringToken(reply, "access_token")
    ensures RefreshAccessToken(cfg, st, reply).result == Err(NotAString("access_token"))
    ensures RefreshAccessToken(cfg, st, reply).store == Save(st, AccessTokenFile, "")
  {
  }

  /** Refresh never writes the refresh-token file, even when the reply carries a new refresh token. */
  lemma RefreshKeepsRefreshToken(cfg: Config, st: Store, reply: Response)
    ensures Load(RefreshAccessToken(cfg, st, reply).store, RefreshTokenFile) == Load(st, RefreshTokenFile)
  {
    TokenFilesDiffer();
    UnchangedLoad(st, RefreshAccessToken(cfg, st, reply).store, {AccessTokenFile}, RefreshTokenFile);
  }

  /** The code grant succeeds exactly when the credentials are ASCII and the reply carries string
      access and refresh tokens; both are then saved and the access token returned. */
  lemma GenerateSucceedsIff(cfg: Config, st: Store, pasted: string, reply: Response)
    ensures var r := GenerateAccessToken(cfg, st, pasted, reply);
            r.result.Ok? <==> IsAscii(UserPass(cfg)) && CarriesToken(reply, "access_token") && CarriesToken(reply, "refresh_token")
    ensures var r := GenerateAccessToken(cfg, st, pasted, reply);
            r.result.Ok? ==>
              && r.result.value == TokenIn(reply, "access_token")
              && r.store == Save(Save(st, AccessTokenFile, TokenIn(reply, "access_token")),
                                 RefreshTokenFile, TokenIn(reply, "refresh_token"))
              && r.sent == Some(CodeRequest(cfg, "Basic " + BasicAuthString(cfg).value, Text.Strip(pasted)))
  {
    var r := GenerateAccessToken(cfg, st, pasted, reply);
    if IsAscii(UserPass(cfg)) && ReplyObject(reply).Ok? {
      var fields := ReplyObject(reply).value;
      if "access_token" in fields && "refresh_token" in fields {
        var req := CodeRequest(cfg, "Basic " + BasicAuthString(cfg).value, Text.Strip(pasted));
        assert r == SaveBoth(st, req, fields["access_token"], fields["refresh_token"]);
      }
    }
  }

  /** Both fields are read before anything is saved: a rejected reply, a body that is not an
      object, or a missing field leaves the files untouched. */
  lemma GenerateReadsBeforeWriting(cfg: Config, st: Store, pasted: string, reply: Response)
    requires reply.TransportFailure? || IsErrorStatus(reply.status) || !reply.body.Object?
             || "access_token" !in reply.body.fields || "refresh_token" !in reply.body.fields
    ensures GenerateAccessToken(cfg, st, pasted, reply).result.Err?
    ensures GenerateAccessToken(cfg, st, pasted, reply).store == st
  {
  }

  /** The only failures that change the files: a non-string access token empties the access-token
      file; a string access token with a non-string refresh token is saved, and the refresh-token
      file is emptied. Every other failure leaves the files as they were. */
  lemma GenerateFailureStore(cfg: Config, st: Store, pasted: string, reply: Response)
    ensures var r := GenerateAccessToken(cfg, st, pasted, reply);
            (r.result.Err? && r.result.error !in {NotAString("access_token"), NotAString("refresh_token")})
              ==> r.store == st
    ensures var r := GenerateAccessToken(cfg, st, pasted, reply);
            r.result == Err(NotAString("access_token")) ==> r.store == Save(st, AccessTokenFile, "")
    ensures var r := GenerateAccessToken(cfg, st, pasted, reply);
            r.result == Err(NotAString("refresh_token")) ==>
              && CarriesToken(reply, "access_token")
              && r.store == Save(Save(st, AccessTokenFile, TokenIn(reply, "access_token")), RefreshTokenFile, "")
  {
    var r := GenerateAccessToken(cfg, st, pasted, reply);
    if IsAscii(UserPass(cfg)) && ReplyObject(reply).Ok? {
      var fields := ReplyObject(reply).value;
      if "access_token" in fields && "refresh_token" in fields {
        var req := CodeRequest(cfg, "Basic " + BasicAuthString(cfg).value, Text.Strip(pasted));
        assert r == SaveBoth(st, req, fields["access_token"], fields["refresh_token"]);
      }
    }
  }

  /** A rejected code exchange (4xx or 5xx) surfaces its status and writes nothing. */
  lemma GenerateHttpError(cfg: Config, st: Store, pasted: string, reply: Response)
    requires IsAscii(UserPass(cfg))
    requires reply.Reply? && IsErrorStatus(reply.status)
    ensures GenerateAccessToken(cfg, st, pasted, reply).result == Err(HttpStatus(reply.status))
    ensures GenerateAccessToken(cfg, st, pasted, reply).store == st
  {
  }

  /** A present access token that is not a string, with a refresh token present: the
      access-token file is emptied and the grant fails before the refresh token is looked at. */
  lemma GenerateNonStringAccess(cfg: Config, st: Store, pasted: string, reply: Response)
    requires IsAscii(UserPass(cfg))
    requires NonStringToken(reply, "access_token") && "refresh_token" in reply.body.fields
    ensures GenerateAccessToken(cfg, st, pasted, reply).result == Err(NotAString("access_token"))
    ensures GenerateAccessToken(cfg, st, pasted, reply).store == Save(st, AccessTokenFile, "")
  {
    var r := GenerateAccessToken(cfg, st, pasted, reply);
    var fields := reply.body.fields;
    var req := CodeRequest(cfg, "Basic " + BasicAuthString(cfg).value, Text.Strip(pasted));
    assert r == SaveBoth(st, req, fields["access_token"], fields["refresh_token"]);
  }

  /** A string access token with a non-string refresh token: the access token is saved and the
      refresh-token file is emptied. */
  lemma GeneratePartialWrites(cfg: Config, st: Store, pasted: string, reply: Response)
    requires IsAscii(UserPass(cfg)) && CarriesToken(reply, "access_token")
    requires "refresh_token" in reply.body.fields && reply.body.fields["refresh_token"].JNonString?
    ensures var r := GenerateAccessToken(cfg, st, pasted, reply);
            && r.result == Err(NotAString("refresh_token"))
            && r.store == Save(Save(st, AccessTokenFile, TokenIn(reply, "access_token")), RefreshTokenFile, "")
  {
  }

  /** When refresh succeeds, the code grant is never run: no prompt, one request, and the pasted
      code and the code reply make no difference. */
  lemma GetTokenRefreshWins(cfg: Config, st: Store, refreshReply: Response,
                            pasted: string, codeReply: Response, pasted': string, codeReply': Response)
    requires RefreshAccessToken(cfg, st, refreshReply).result.Ok?
    ensures var s := GetToken(cfg, st, refreshReply, pasted, codeReply);
            var r := RefreshAccessToken(cfg, st, refreshReply);
            && s.result == r.result && s.store == r.store
            && s.prompts == [] && s.requests == [r.sent.value]
            && s == GetToken(cfg, st, refreshReply, pasted', codeReply')
  {
  }

  /** When refresh fails, the URL is shown once and the code grant runs once, on the files the
      refresh left; its outcome is the session's outcome. */
  lemma GetTokenFallsBackOnce(cfg: Config, st: Store, refreshReply: Response, pasted: string, codeReply: Response)
    requires RefreshAccessToken(cfg, st, refreshReply).result.Err?
    ensures var s := GetToken(cfg, st, refreshReply, pasted, codeReply);
            var r := RefreshAccessToken(cfg, st, refreshReply);
            var g := GenerateAccessToken(cfg, r.store, pasted, codeReply);
            && s.result == g.result && s.store == g.store
            && s.prompts == [AuthorizeUrl(cfg)]
            && s.requests == SentRequests(r.sent) + SentRequests(g.sent)
  {
  }

  /** The whole session after a refresh that failed without touching the files. */
  lemma FallbackSession(cfg: Config, st: Store, refreshReply: Response, pasted: string, codeReply: Response)
    requires RefreshAccessToken(cfg, st, refreshReply).result.Err?
    requires RefreshAccessToken(cfg, st, refreshReply).store == st
    ensures var r := RefreshAccessToken(cfg, st, refreshReply);
            var g := GenerateAccessToken(cfg, st, pasted, codeReply);
            GetToken(cfg, st, refreshReply, pasted, codeReply)
              == Session(g.result, g.store, [AuthorizeUrl(cfg)], SentRequests(r.sent) + SentRequests(g.sent))
  {
  }

  /** A refresh error never reaches the caller: every error the session returns comes from the code grant. */
  lemma GetTokenErrorsComeFromFallback(cfg: Config, st: Store, refreshReply: Response, pasted: string, codeReply: Response)
    ensures var s := GetToken(cfg, st, refreshReply, pasted, codeReply);
            s.result.Err? ==>
              && s.prompts == [AuthorizeUrl(cfg)]
              && s.result == GenerateAccessToken(cfg, RefreshAccessToken(cfg, st, refreshReply).store, pasted, codeReply).result
  {
  }

  /** Credentials that are not ASCII fail both grants before either posts anything. */
  lemma GetTokenNonAsciiCredentials(cfg: Config, st: Store, refreshReply: Response, pasted: string, codeReply: Response)
    requires !IsAscii(UserPass(cfg))
    ensures var s := GetToken(cfg, st, refreshReply, pasted, codeReply);
            && s.requests == [] && s.store == st && s.prompts == [AuthorizeUrl(cfg)]
            && s.result == Err(NonAsciiCredentials)
  {
  }
}

=== FILE: http.dfy ===
/** The server's side of a token request, reduced to what the grant functions look at. */
module Http {
  import opened Outcomes

  /** A JSON value as far as a token field is concerned: a string, or anything else
      (number, boolean, null, array, object). */
  datatype Json = JString(text: string) | JNonString

  /** A reply body: a JSON object, some other JSON value, or text that is not JSON. */
  datatype Body = Object(fields: map<string, Json>) | OtherJson | NotJson

  /** What `requests.post` yields: a reply with a status code and a body, or a raised transport error. */
  datatype Response = Reply(status: int, body: Body) | TransportFailure

  /** A POST as the grant functions build it. */
  datatype Request = Request(url: string, headers: map<string, string>, payload: string)

  /** The statuses `raise_for_status()` raises for: client errors 4xx and server errors 5xx. */
  predicate IsErrorStatus(status: int) {
    400 <= status < 600
  }

  /** `raise_for_status()` followed by `json()`, keeping only a body that can be indexed by key. */
  function ReplyObject(resp: Response): (r: Result<map<string, Json>>)
    ensures r.Ok? <==> resp.Reply? && !IsErrorStatus(resp.status) && resp.body.Object?
    ensures r.Ok? ==> r.value == resp.body.fields
    ensures resp.Reply? && IsErrorStatus(resp.status) ==> r == Err(HttpStatus(resp.status))
  {
    match resp
    case TransportFailure => Err(TransportFailed)
    case Reply(status, body) =>
      if IsErrorStatus(status) then Err(HttpStatus(status))
      else
        match body
        case NotJson => Err(MalformedJson)
        case OtherJson => Err(NotAnObject)
        case Object(fields) => Ok(fields)
  }

  /** `data[key]`: a missing key is an error. */
  function Field(fields: map<string, Json>, key: string): Result<Json> {
    if key in fields then Ok(fields[key]) else Err(MissingField(key))
  }
}

=== FILE: outcomes.dfy ===
/** Failure-carrying values shared by every part of the credential lifecycle.
    Each Python exception the token helpers can raise becomes one `Error` case. */
module Outcomes {

  datatype Option<+T> = None | Some(value: T)

  /** Every way obtaining or persisting a token can fail. */
  datatype Error =
    | NotFound(file: string)      // opening a token file that does not exist
    | NonAsciiCredentials         // the client id or secret cannot be encoded as ASCII
    | TransportFailed             // the POST itself raised (connection refused, timeout, ...)
    | HttpStatus(status: int)     // raise_for_status() rejected the reply
    | MalformedJson               // the reply body is not JSON
    | NotAnObject                 // the reply body is JSON, but not an object, so it cannot be indexed by key
    | MissingField(key: string)   // the reply object lacks a key the grant reads
    | NotAString(key: string)     // the token under `key` is not a string, so writing it to a file fails

  datatype Result<+T> = Ok(value: T) | Err(error: Error)
}

=== FILE: scenarios.dfy ===
/** End-to-end runs of the token policy on particular files and replies. */
module Scenarios {
  import opened Outcomes
  import Text
  import Base64
  import opened Http
  import opened TokenStore
  import opened Credentials
  import opened Grants

  /** The 200 reply of the code grant carrying tok1 and ref1. */
  const FirstPair := Reply(200, Object(map["access_token" := JString("tok1"), "refresh_token" := JString("ref1")]))

  lemma StripPastedCode()
    ensures Text.Strip(" ABC123\t") == "ABC123"
  {
    var code := " ABC123\t";
    assert code[..1] == " " && code[7..] == "\t" && code[1..7] == "ABC123";
    Text.StripUnique(code, 1, 7);
  }

  lemma FirstPairGrant(cfg: Config, st: Store, pasted: string)
    requires IsAscii(UserPass(cfg))
    ensures var g := GenerateAccessToken(cfg, st, pasted, FirstPair);
            && g.result == Ok("tok1")
            && g.store == st[AccessTokenFile := "tok1"][RefreshTokenFile := "ref1"]
            && g.sent == Some(CodeRequest(cfg, "Basic " + BasicAuthString(cfg).value, Text.Strip(pasted)))
  {
    var reply := FirstPair;
    assert CarriesToken(reply, "access_token") && TokenIn(reply, "access_token") == "tok1";
    assert CarriesToken(reply, "refresh_token") && TokenIn(reply, "refresh_token") == "ref1";
    GenerateSucceedsIff(cfg, st, pasted, reply);
  }

  /** First run: no token files. Refresh fails on the missing file, the user pastes " ABC123\t",
      the server returns tok1/ref1, and both files are written. */
  lemma FirstRun(cfg: Config, refreshReply: Response)
    requires IsAscii(UserPass(cfg))
    ensures var s := GetToken(cfg, map[], refreshReply, " ABC123\t", FirstPair);
            && s.result == Ok("tok1")
            && s.store == map[AccessTokenFile := "tok1", RefreshTokenFile := "ref1"]
            && s.prompts == [AuthorizeUrl(cfg)]
            && |s.requests| == 1
            && s.requests[0].payload == CodeGrantPrefix + "ABC123"
  {
    StripPastedCode();
    RefreshWithoutRefreshFile(cfg, map[], refreshReply);
    FirstPairGrant(cfg, map[], " ABC123\t");
    GetTokenFallsBackOnce(cfg, map[], refreshReply, " ABC123\t", FirstPair);
  }

  lemma LoadRef1(st: Store)
    requires RefreshTokenFile in st && st[RefreshTokenFile] == "ref1\n"
    ensures Load(st, RefreshTokenFile) == Ok("ref1")
  {
    var saved := st[RefreshTokenFile];
    assert Text.TranslateNewlines(saved) == saved;
    assert saved[..0] == [] && saved[4..] == "\n" && saved[0..4] == "ref1";
    Text.StripUnique(saved, 0, 4);
  }

  const RotationlessReply := Reply(200, Object(map["access_token" := JString("tok2")]))

  lemma RotationlessRefresh(cfg: Config, st: Store)
    requires IsAscii(UserPass(cfg))
    requires RefreshTokenFile in st && st[RefreshTokenFile] == "ref1\n"
    ensures var r := RefreshAccessToken(cfg, st, RotationlessReply);
            && r.result == Ok("tok2")
            && r.store == st[AccessTokenFile := "tok2"]
            && r.sent.Some? && r.sent.value.payload == RefreshGrantPrefix + "ref1"
  {
    LoadRef1(st);
    assert CarriesToken(RotationlessReply, "access_token") && TokenIn(RotationlessReply, "access_token") == "tok2";
    RefreshSucceedsIff(cfg, st, RotationlessReply);
  }

  /** A saved refresh token and a reply without a new refresh token: only the access-token file
      is rewritten, and the old refresh token stays for the next run. */
  lemma RefreshWithoutRotation(cfg: Config, st: Store, pasted: string, codeReply: Response)
    requires IsAscii(UserPass(cfg))
    requires RefreshTokenFile in st && st[RefreshTokenFile] == "ref1\n"
    ensures var s := GetToken(cfg, st, RotationlessReply, pasted, codeReply);
            && s.result == Ok("tok2")
            && s.store == st[AccessTokenFile := "tok2"]
            && s.store[RefreshTokenFile] == "ref1\n"
            && s.prompts == []
            && |s.requests| == 1
            && s.requests[0].payload == RefreshGrantPrefix + "ref1"
  {
    RotationlessRefresh(cfg, st);
    GetTokenRefreshWins(cfg, st, RotationlessReply, pasted, codeReply, pasted, codeReply);
  }

  lemma TwoInOrder(first: Request, second: Request)
    ensures [first] + [second] == [first, second]
  {
  }

  lemma StripBareCode()
    ensures Text.Strip("ABC123") == "ABC123"
  {
    var code := "ABC123";
    assert |code| == 6 && code[0] == 'A' && code[5] == '3';
    assert !Text.IsSpace('A') && !Text.IsSpace('3');
    Text.StripTrimmed(code);
  }

  /** The refresh request an expired refresh token gets rejected on. */
  lemma RejectedRefresh(cfg: Config, st: Store, body: Body)
    requires IsAscii(UserPass(cfg))
    requires RefreshTokenFile in st
    ensures var r := RefreshAccessToken(cfg, st, Reply(401, body));
            && r.result == Err(HttpStatus(401)) && r.store == st
            && SentRequests(r.sent)
               == [RefreshRequest(cfg, "Basic " + BasicAuthString(cfg).value, Load(st, RefreshTokenFile).value)]
  {
    RefreshHttpError(cfg, st, Reply(401, body));
  }

  /** An expired refresh token: the server rejects the refresh with 401, the policy falls back
      to the code grant, and the caller only sees the new token. */
  lemma ExpiredRefreshToken(cfg: Config, st: Store, body: Body)
    requires IsAscii(UserPass(cfg))
    requires RefreshTokenFile in st
    ensures var s := GetToken(cfg, st, Reply(401, body), "ABC123", FirstPair);
            && s.result == Ok("tok1")
            && s.store == st[AccessTokenFile := "tok1"][RefreshTokenFile := "ref1"]
            && s.prompts == [AuthorizeUrl(cfg)]
            && s.requests == [RefreshRequest(cfg, "Basic " + BasicAuthString(cfg).value,
                                             Load(st, RefreshTokenFile).value),
                              CodeRequest(cfg, "Basic " + BasicAuthString(cfg).value, "ABC123")]
  {
    var auth := "Basic " + BasicAuthString(cfg).value;
    var first := RefreshRequest(cfg, auth, Load(st, RefreshTokenFile).value);
    var second := CodeRequest(cfg, auth, "ABC123");
    TwoInOrder(first, second);
    StripBareCode();
    RejectedRefresh(cfg, st, body);
    FirstPairGrant(cfg, st, "ABC123");
    FallbackSession(cfg, st, Reply(401, body), "ABC123", FirstPair);
  }

  /** A refresh reply whose access token is not a string empties the access-token file before
      failing; if the code grant is then rejected, the caller gets the rejection and the
      access-token file stays empty. */
  lemma NonStringTokenEmptiesFile(cfg: Config, st: Store, pasted: string)
    requires IsAscii(UserPass(cfg))
    requires RefreshTokenFile in st
    ensures var s := GetToken(cfg, st, Reply(200, Object(map["access_token" := JNonString])), pasted, Reply(401, NotJson));
            && s.result == Err(HttpStatus(401))
            && s.store == st[AccessTokenFile := ""]
  {
    var reply := Reply(200, Object(map["access_token" := JNonString]));
    RefreshFailureStore(cfg, st, reply);
    GetTokenFallsBackOnce(cfg, st, reply, pasted, Reply(401, NotJson));
  }

  /** The bytes of "api.client:api.secret". */
  const DefaultUserPassBytes: seq<Base64.Byte> :=
    [97, 112, 105, 46, 99, 108, 105, 101, 110, 116, 58, 97, 112, 105, 46, 115, 101, 99, 114, 101, 116]

  lemma DefaultUserPassIsAscii()
    ensures AsciiEncode(UserPass(DefaultConfig)) == Some(DefaultUserPassBytes)
  {
    var u := UserPass(DefaultConfig);
    var d := DefaultUserPassBytes;
    assert |u| == 21;
    forall i | 0 <= i < 21
      ensures (u[i] as int) == d[i]
    {
      if i < 10 {
        assert u[i] == "api.client"[i];
      } else if i == 10 {
        assert u[i] == ':';
      } else {
        assert u[i] == "api.secret"[i - 11];
      }
    }
    assert IsAscii(u);
    assert AsciiEncode(u).value == d;
  }

  lemma DefaultGroupsLeft()
    ensures Base64.EncodeGroup(97, 112, 105) == "YXBp"
    ensures Base64.EncodeGroup(46, 99, 108) == "LmNs"
    ensures Base64.EncodeGroup(105, 101, 110) == "aWVu"
  {
  }

  lemma DefaultGroup4()
    ensures Base64.EncodeGroup(116, 58, 97) == "dDph"
  {
    assert Base64.Split(116, 58, 97) == Base64.Quad(29, 3, 41, 33);
  }

  lemma DefaultGroup5()
    ensures Base64.EncodeGroup(112, 105, 46) == "cGku"
  {
    assert Base64.Split(112, 105, 46) == Base64.Quad(28, 6, 36, 46);
  }

  lemma DefaultGroup6()
    ensures Base64.EncodeGroup(115, 101, 99) == "c2Vj"
  {
    assert Base64.Split(115, 101, 99) == Base64.Quad(28, 54, 21, 35);
  }

  lemma DefaultGroup7()
    ensures Base64.EncodeGroup(114, 101, 116) == "cmV0"
  {
    assert Base64.Split(114, 101, 116) == Base64.Quad(28, 38, 21, 52);
  }

  /** Encoding a whole group in front of more bytes. */
  lemma EncodeCons(x0: Base64.Byte, x1: Base64.Byte, x2: Base64.Byte, tail: seq<Base64.Byte>)
    ensures Base64.Encode([x0, x1, x2] + tail) == Base64.EncodeGroup(x0, x1, x2) + Base64.Encode(tail)
  {
    var b := [x0, x1, x2] + tail;
    assert b[0] == x0 && b[1] == x1 && b[2] == x2 && b[3..] == tail;
    Base64.EncodeStep(b);
  }

  /** The last four groups of the default user-pass bytes. */
  const DefaultRightBytes: seq<Base64.Byte> := [116, 58, 97, 112, 105, 46, 115, 101, 99, 114, 101, 116]

  lemma DefaultRightSplit()
    ensures DefaultRightBytes == [116, 58, 97] + ([112, 105, 46] + ([115, 101, 99] + ([114, 101, 116] + [])))
    ensures "dDph" + ("cGku" + ("c2Vj" + ("cmV0" + ""))) == "dDphcGkuc2VjcmV0"
  {
  }

  lemma DefaultLeftSplit()
    ensures DefaultUserPassBytes == [97, 112, 105] + ([46, 99, 108] + ([105, 101, 110] + DefaultRightBytes))
  {
  }

  lemma DefaultLeftText()
    ensures "YXBp" + ("LmNs" + ("aWVu" + "dDphcGkuc2VjcmV0")) == "YXBpLmNsaWVudDphcGkuc2VjcmV0"
  {
  }

  lemma DefaultEncodingRight()
    ensures Base64.Encode(DefaultRightBytes) == "dDphcGkuc2VjcmV0"
  {
    DefaultRightSplit();
    DefaultGroup4();
    DefaultGroup5();
    DefaultGroup6();
    DefaultGroup7();
    EncodeCons(114, 101, 116, []);
    EncodeCons(115, 101, 99, [114, 101, 116] + []);
    EncodeCons(112, 105, 46, [115, 101, 99] + ([114, 101, 116] + []));
    EncodeCons(116, 58, 97, [112, 105, 46] + ([115, 101, 99] + ([114, 101, 116] + [])));
  }

  lemma DefaultEncoding()
    ensures Base64.Encode(DefaultUserPassBytes) == "YXBpLmNsaWVudDphcGkuc2VjcmV0"
  {
    DefaultLeftSplit();
    DefaultLeftText();
    DefaultGroupsLeft();
    DefaultEncodingRight();
    EncodeCons(105, 101, 110, DefaultRightBytes);
    EncodeCons(46, 99, 108, [105, 101, 110] + DefaultRightBytes);
    EncodeCons(97, 112, 105, [46, 99, 108] + ([105, 101, 110] + DefaultRightBytes));
  }

  /** `_get_base64_auth_string()` with the default client id and secret. */
  lemma DefaultAuthString()
    ensures BasicAuthString(DefaultConfig) == Ok("YXBpLmNsaWVudDphcGkuc2VjcmV0")
  {
    DefaultUserPassIsAscii();
    DefaultEncoding();
  }
}

=== FILE: text.dfy ===
/** The two text transformations a token passes through on its way back from a file:
    universal-newline translation (reading a file in text mode) and `str.strip()`. */
module Text {

  /** Python's `str.isspace()`: general category Zs, or bidirectional class WS, B or S. */
  predicate IsSpace(c: char) {
    var n := c as int;
    || 0x09 <= n <= 0x0D
    || 0x1C <= n <= 0x20
    || n == 0x85 || n == 0xA0 || n == 0x1680
    || 0x2000 <= n <= 0x200A
    || n == 0x2028 || n == 0x2029 || n == 0x202F || n == 0x205F || n == 0x3000
  }

  predicate AllSpace(s: string) {
    forall i :: 0 <= i < |s| ==> IsSpace(s[i])
  }

  /** Neither end of `s` is whitespace (vacuously true of the empty string). */
  predicate Trimmed(s: string) {
    s == [] || (!IsSpace(s[0]) && !IsSpace(s[|s| - 1]))
  }

  /** `s` with its leading whitespace removed: a suffix of `s`, and only whitespace was dropped. */
  function TrimStart(s: string): (r: string)
    ensures |r| <= |s| && r == s[|s| - |r|..]
    ensures AllSpace(s[..|s| - |r|])
    ensures r == [] || !IsSpace(r[0])
    decreases |s|
  {
    if s != [] && IsSpace(s[0]) then
      var r := TrimStart(s[1..]);
      SpaceThenPrefix(s, |s| - |r|);
      r
    else
      assert s[..0] == [];
      s
  }

  /** `s` with its trailing whitespace removed: a prefix of `s`, and only whitespace was dropped. */
  function TrimEnd(s: string): (r: string)
    ensures |r| <= |s| && r == s[..|r|]
    ensures AllSpace(s[|r|..])
    ensures r == [] || !IsSpace(r[|r| - 1])
    decreases |s|
  {
    if s != [] && IsSpace(s[|s| - 1]) then
      var r := TrimEnd(s[..|s| - 1]);
      SuffixThenSpace(s, |r|);
      r
    else
      assert s[|s|..] == [];
      s
  }

  /** A whitespace character followed by whitespace is whitespace. */
  lemma SpaceThenPrefix(s: string, n: int)
    requires 0 < n <= |s| && IsSpace(s[0]) && AllSpace(s[1..][..n - 1])
    ensures AllSpace(s[..n])
  {
    assert s[..n] == [s[0]] + s[1..][..n - 1];
  }

  /** Whitespace followed by a whitespace character is whitespace. */
  lemma SuffixThenSpace(s: string, k: int)
    requires 0 <= k < |s| && IsSpace(s[|s| - 1]) && AllSpace(s[..|s| - 1][k..])
    ensures AllSpace(s[k..])
  {
    assert s[k..] == s[..|s| - 1][k..] + [s[|s| - 1]];
  }

  /** Python's `str.strip()` with no argument. */
  function Strip(s: string): (r: string)
    ensures Trimmed(r)
    ensures exists i, j :: 0 <= i <= j <= |s| && r == s[i..j] && AllSpace(s[..i]) && AllSpace(s[j..])
  {
    var t := TrimStart(s);
    var r := TrimEnd(t);
    MiddleSlice(s, t, r);
    r
  }

  /** A prefix of a suffix of `s` is a slice of `s`, and what follows it is a suffix of `s`. */
  lemma MiddleSlice(s: string, t: string, r: string)
    requires |t| <= |s| && t == s[|s| - |t|..] && AllSpace(s[..|s| - |t|])
    requires |r| <= |t| && r == t[..|r|] && AllSpace(t[|r|..])
    ensures var i := |s| - |t|;
            && i + |r| <= |s| && r == s[i..i + |r|]
            && AllSpace(s[..i]) && AllSpace(s[i + |r|..])
  {
    var i := |s| - |t|;
    assert s[i + |r|..] == t[|r|..];
  }

  /** TrimStart stops at the first character that is not whitespace. */
  lemma {:induction false} TrimStartAt(s: string, i: int)
    requires 0 <= i <= |s| && AllSpace(s[..i])
    requires i == |s| || !IsSpace(s[i])
    ensures TrimStart(s) == s[i..]
    decreases i
  {
    if i > 0 {
      assert s[..i][0] == s[0];
      assert s[1..][..i - 1] == s[..i][1..];
      assert s[1..][i - 1..] == s[i..];
      TrimStartAt(s[1..], i - 1);
    }
  }

  /** TrimEnd stops after the last character that is not whitespace. */
  lemma {:induction false} TrimEndAt(s: string, j: int)
    requires 0 <= j <= |s| && AllSpace(s[j..])
    requires j == 0 || !IsSpace(s[j - 1])
    ensures TrimEnd(s) == s[..j]
    decreases |s| - j
  {
    if j < |s| {
      assert s[j..][|s| - 1 - j] == s[|s| - 1];
      var t := s[..|s| - 1];
      assert t[j..] == s[j..][..|s| - 1 - j];
      assert t[..j] == s[..j];
      TrimEndAt(t, j);
    }
  }

  /** A string of whitespace strips to nothing. */
  lemma StripAllSpace(s: string)
    requires AllSpace(s)
    ensures Strip(s) == []
  {
    assert s[..|s|] == s;
    TrimStartAt(s, |s|);
  }

  /** Cutting whitespace off both ends and leaving a non-empty trimmed middle is what Strip does. */
  lemma StripAround(s: string, i: int, j: int)
    requires 0 <= i < j <= |s|
    requires AllSpace(s[..i]) && AllSpace(s[j..]) && Trimmed(s[i..j])
    ensures Strip(s) == s[i..j]
  {
    var t := s[i..];
    assert s[i..j][0] == s[i];
    assert t[j - i..] == s[j..];
    assert s[i..j][j - i - 1] == t[j - i - 1];
    assert t[..j - i] == s[i..j];
    assert AllSpace(t[j - i..]);
    TrimEndAt(t, j - i);
    TrimStartAt(s, i);
  }

  /** Strip is the only way to cut whitespace off both ends of `s` and leave a trimmed middle. */
  lemma StripUnique(s: string, i: int, j: int)
    requires 0 <= i <= j <= |s|
    requires AllSpace(s[..i]) && AllSpace(s[j..]) && Trimmed(s[i..j])
    ensures Strip(s) == s[i..j]
  {
    if i < j {
      StripAround(s, i, j);
    } else {
      forall k | 0 <= k < |s|
        ensures IsSpace(s[k])
      {
        if k < i { assert s[..i][k] == s[k]; } else { assert s[j..][k - j] == s[k]; }
      }
      StripAllSpace(s);
    }
  }

  /** A string with no whitespace at either end strips to itself. */
  lemma StripTrimmed(s: string)
    requires Trimmed(s)
    ensures Strip(s) == s
  {
    assert s[..0] == [] && s[|s|..] == [] && s[0..|s|] == s;
    StripUnique(s, 0, |s|);
  }

  /** Stripping twice is stripping once. */
  lemma StripIdempotent(s: string)
    ensures Strip(Strip(s)) == Strip(s)
  {
    StripTrimmed(Strip(s));
  }

  /** Text-mode reading with universal newlines: "\r\n" and a lone "\r" both become "\n". */
  function TranslateNewlines(s: string): (r: string)
    ensures '\r' !in r
    ensures |r| <= |s|
    ensures '\r' !in s ==> r == s
    decreases |s|
  {
    if s == [] then []
    else if s[0] == '\r' then
      if |s| >= 2 && s[1] == '\n' then "\n" + TranslateNewlines(s[2..]) else "\n" + TranslateNewlines(s[1..])
    else [s[0]] + TranslateNewlines(s[1..])
  }

  /** `s.replace("\r\n", "\n")`: a carriage return directly before a line feed is dropped,
      scanning left to right. */
  function DropCrBeforeLf(s: string): string
    decreases |s|
  {
    if s == [] then []
    else if |s| >= 2 && s[0] == '\r' && s[1] == '\n' then "\n" + DropCrBeforeLf(s[2..])
    else [s[0]] + DropCrBeforeLf(s[1..])
  }

  /** `s.replace("\r", "\n")`: every carriage return becomes a line feed. */
  function CrToLf(s: string): string {
    seq(|s|, i requires 0 <= i < |s| => if s[i] == '\r' then '\n' else s[i])
  }

  lemma CrToLfCons(c: char, t: string)
    ensures CrToLf([c] + t) == [if c == '\r' then '\n' else c] + CrToLf(t)
  {
  }

  /** Universal-newline reading agrees with Python's own two-pass description of it,
      `s.replace("\r\n", "\n").replace("\r", "\n")`. */
  lemma {:induction false} TranslateTwoPass(s: string)
    ensures TranslateNewlines(s) == CrToLf(DropCrBeforeLf(s))
    decreases |s|
  {
    if s == [] {
    } else if |s| >= 2 && s[0] == '\r' && s[1] == '\n' {
      TranslateTwoPass(s[2..]);
      CrToLfCons('\n', DropCrBeforeLf(s[2..]));
    } else {
      TranslateTwoPass(s[1..]);
      CrToLfCons(s[0], DropCrBeforeLf(s[1..]));
    }
  }
}

=== FILE: token_store.dfy ===
/** The two token files, modelled as a map from file name to file contents.
    Every file lives in the same directory, so the name alone identifies it. */
module TokenStore {
  import opened Outcomes
  import Text

  type Store = map<string, string>

  const AccessTokenFile := "access_token.txt"
  const RefreshTokenFile := "refresh_token.txt"

  /** `save_token`: the file's whole contents become `token`, created if absent. */
  function Save(st: Store, file: string, token: string): (r: Store)
    ensures r.Keys == st.Keys + {file}
    ensures r[file] == token
    ensures forall f :: f in st && f != file ==> r[f] == st[f]
  {
    st[file := token]
  }

  /** `load_token`: the file read in text mode (universal newlines), then stripped.
      A missing file is an error. */
  function Load(st: Store, file: string): (r: Result<string>)
    ensures r.Err? <==> file !in st
    ensures r.Err? ==> r.error == NotFound(file)
    ensures r.Ok? ==> Text.Trimmed(r.value) && '\r' !in r.value
  {
    if file !in st then Err(NotFound(file))
    else Ok(Text.Strip(Text.TranslateNewlines(st[file])))
  }

  /** Loading a file just saved gives the saved text, stripped; a token without
      carriage returns comes back exactly as `str.strip()` would leave it. */
  lemma LoadAfterSave(st: Store, file: string, token: string)
    ensures Load(Save(st, file, token), file) == Ok(Text.Strip(Text.TranslateNewlines(token)))
    ensures '\r' !in token ==> Load(Save(st, file, token), file) == Ok(Text.Strip(token))
  {
  }

  /** Last write wins: a second save to the same file erases every trace of the first. */
  lemma SaveLastWins(st: Store, file: string, first: string, second: string)
    ensures Save(Save(st, file, first), file, second) == Save(st, file, second)
  {
  }

  /** Saving one file leaves every other file as it was, present or absent. */
  lemma SaveKeepsOtherFiles(st: Store, file: string, other: string, token: string)
    requires other != file
    ensures Load(Save(st, file, token), other) == Load(st, other)
  {
  }

  /** Writing back what was loaded and loading again gives the same token. */
  lemma {:induction false} LoadSaveLoad(st: Store, file: string)
    requires Load(st, file).Ok?
    ensures var t := Load(st, file).value;
            Load(Save(st, file, t), file) == Ok(t)
  {
    var t := Load(st, file).value;
    Text.StripIdempotent(Text.TranslateNewlines(st[file]));
  }
}
